=== FILE: README.md ===
# Office micro-gym: progress and gamification model

A Dafny model of the progress and gamification logic of the office micro-gym
tracker (`app.js`), taken apart from its DOM and storage code. The app
generates a sprint of calendar days from a configuration, skipping a rest
weekday. It lets the user count push-ups and right/left dumbbell lifts in three
daily slots against targets. On top of that log it awards Day Master and Week
Finisher achievements, a global streak and its best, experience points, and
write-once badges.

The model is functional. The whole persisted document is an immutable value
(`Document.Document`), and every user action is a document-to-document
function:

- `dates.dfy` (`Dates`): calendar days as integers, with day 0 = 1970-01-01.
  The weekday is `(n + 4) % 7`, with Sunday = 0 as in `getDay`. A rest-day
  test, and the keys of date-indexed maps. `Iso(n)` is the injective
  day-to-key map. `Raw(text)` stands for any other key a document can hold,
  such as the empty "last XP day" of a fresh document.
- `config.dfy` (`Config`): the configuration, its defaults, the `x || 12`
  fallback, and the field-by-field merge over the defaults.
- `counters.dfy` (`Counters`): the three-slot, three-field record used for
  both targets and done counts.
- `schedule.dfy` (`Schedule`): `buildDays`.
- `progress.dfy` (`Progress`): lazy entry creation, the "+" and "-" counter
  buttons, and the day reset.
- `stats.dfy` (`Stats`): progress clamped to targets, `isDay100`, the day
  percentage, and `totalsAll`.
- `streak.dfy` (`Streak`): `computeStreakGlobal`, as a recursive reference
  definition and as the source's guarded loop.
- `awards.dfy` (`Awards`): the write-once Day Master and Week Finisher maps.
- `gamification.dfy` (`Gamification`): `addXP`, the streak/best update,
  `give` and `grantBadges`.
- `document.dfy` (`Document`): the render pass, the button and reset events,
  and import/export.

"Today" is a parameter (a day number). Saving is a no-op, because every
operation returns the whole new document.

Behaviours of the code worth knowing, all of which the model keeps:

- A day with no targets shows 0%. The zero denominator becomes 1, and the
  clamped done sum is 0 as well (app.js:222, `Stats.DayPct`).
- The streak is counted back from today (app.js:290). With active days
  {D, D-1, D-3} and no rest day, it is 2 on day D
  (`Streak.NoRestDayStopsAtGap`).
- The streak reads the rest weekday through `Number(skipWeekday || -1)`
  (app.js:288). A configured Sunday (0), which is the default, is therefore
  treated as no rest day by the streak, although the schedule leaves Sundays
  out. An empty Sunday between active days ends the streak
  (`Streak.SundayRestBreaksStreak`).
- The Day Master and Week Finisher badges count the KEYS of the achievement
  maps, whatever their flags (app.js:327-328, `Gamification.BadgeDue`).
- Quests, stickers, levels, the XP multiplier and the first-move bonus do not
  exist in this version of the app.

## Model

| member | source | states |
|---|---|---|
| `Numbers.Clamp` | app.js:27 | the result lies in [lo, hi] when lo <= hi, equals v inside the range, the nearer bound outside it, and lo when the bounds cross |
| `Config.Merge` | app.js:19 | every field present in the stored or imported configuration overrides the default; every absent field takes the default |
| `Config.Fields` | app.js:409 | a complete configuration, written out and merged over the defaults, comes back unchanged |
| `Config.MergeNothing` | app.js:19 | a document without configuration fields gets exactly the default configuration |
| `Schedule.Workdays` | app.js:49-75 | the walk returns exactly n dates, strictly increasing, none before the start and none on the rest weekday; each included date is the first non-rest day after the previous one, so no working day is left out |
| `Schedule.BuildDays` | app.js:42-77 | exactly max(totalDays, 0) days in strictly increasing date order, none on the rest weekday when it is >= 0, no other day missed from the start date on; day j's title is rotation[j mod len] or "Dumbbell"; its targets are morning (P, L, L), midday (progressive ? m : 0, m, m), evening (m, L, L) with m = min(progressiveMax or 12, j+1) and P, L the bases with zero replaced by 12 |
| `Schedule.ProgressionMonotone` | app.js:54-55 | the progression value never decreases from day to day, never exceeds the ceiling, and equals the ceiling once the position reaches it |
| `Schedule.TargetsNonNegative` | app.js:54-69 | with non-negative bases and ceiling every target of every built day is non-negative, and the morning push-up and evening lift targets are positive, and a configured zero base becomes 12 |
| `Schedule.OneDaySprint` | app.js:42-77 | the one-day sprint from 2025-08-20 has targets morning {12,12,12}, midday {0,1,1}, evening {1,12,12} |
| `Progress.GetProgressFor` | app.js:33-39 | an existing entry is returned and the store is unchanged; otherwise an all-zero entry is created for that key only and every other entry is kept |
| `Progress.More` | app.js:173-175 | the field goes up by one and never above 999 (a value outside the range is pulled into it); no other field of that date and no other date changes |
| `Progress.Less` | app.js:169-171 | the field goes down by one and never below 0; no other field of that date and no other date changes |
| `Progress.ResetDay` | app.js:269 | all nine fields of that date become 0 and no other date's entry changes |
| `Progress.MoreThenLess` | app.js:169-175 | "+" then "-" on a field below 999 gives back the store as it was, once the date's entry exists |
| `Progress.LessThenMore` | app.js:169-175 | "-" then "+" on a field above 0 gives back the store as it was, once the date's entry exists |
| `Progress.ResetAfterMore` | app.js:269 | a reset wipes out whatever the "+" button did to that date |
| `Progress.SetClampedKeepsRange` | app.js:170 | setting a field through the clamp keeps every counter of the store in [0, 999] |
| `Progress.OperationsKeepRange` | app.js:169-175 | lazy creation, "+", "-" and reset all keep every counter of the store in [0, 999] |
| `Stats.ClampToTargets` | app.js:213-217 | each clamped field is >= 0 and at most its (non-negative) target; it equals the done count inside that range and the target once the count reaches it; a field with a negative target is 0 |
| `Stats.IsDay100` | app.js:102-112 | a day is never 100% when its target sum is not positive |
| `Stats.DoneWithinTarget` | app.js:209-221 | with non-negative targets the clamped done sum lies in [0, target sum] |
| `Stats.ClampedFieldIff` | app.js:213-217 | a clamped field equals its target exactly when the count has reached it or the target is 0 |
| `Stats.SumReachesOnlyAtTargets` | app.js:102-111 | nine fields each at most their target reach the target sum only when each equals its target |
| `Stats.Day100Iff` | app.js:102-111 | with non-negative targets a day is 100% exactly when its target sum is positive and every one of the nine fields has reached its target |
| `Stats.RoundHalfUp` | app.js:222 | the result is the integer nearest to num/den, with halves rounded up |
| `Stats.PctBounds` | app.js:222 | for 0 <= done <= den the rounded percentage lies in [0, 100], is 100 when done = den and 0 when done = 0 |
| `Stats.DayPct` | app.js:222 | with non-negative targets the percentage lies in [0, 100]; a 100% day shows 100; a day with zero target sum shows 0 |
| `Stats.DayContributionBounds` | app.js:83-88 | with every counter in range one day adds at most 3 x 999 push-ups and 6 x 999 lifts, and nothing negative |
| `Stats.TotalsAll` | app.js:80-91 | with every counter in [0, 999] the push-up total lies in [0, 2997 x days] and the lift total in [0, 5994 x days] |
| `Stats.TotalsAppend` | app.js:83-89 | totals over two consecutive stretches of days add up |
| `Stats.TotalsReadOnlyDays` | app.js:83-89 | the totals depend only on the schedule days' own entries |
| `Streak.StreakSkip` | app.js:288 | a configured Sunday (0) becomes no rest day (a negative value that matches no weekday), and any other value is kept |
| `Streak.StreakFrom` | app.js:294-308 | the streak never exceeds the number of iterations the guard allows |
| `Streak.StreakMeaning` | app.js:287-310 | going back from today, every day after the stop date is a rest day or active; the streak is the number of non-rest days among them; the walk stopped at an inactive non-rest day or when the 2000-iteration guard ran out |
| `Streak.ComputeStreakGlobal` | app.js:287-310 | the guarded loop with its rest-day `continue` and its `break` computes the reference streak, which is at most 2000 |
| `Streak.RestDayBridgesGap` | app.js:294-308 | with active days D, D-1, D-3 and D-2 on the rest weekday, the streak from D is 3 |
| `Streak.NoRestDayStopsAtGap` | app.js:294-308 | with the same days and no rest weekday, the streak from D is 2 |
| `Streak.SundayRestBreaksStreak` | app.js:288 | with Sunday configured as the rest day, an empty Sunday between active days ends the streak |
| `Awards.OnlyRaisesTransitive` | app.js:239-260 | "flags only go from unset to set" composes over successive updates |
| `Awards.AwardDay` | app.js:239-261 | only a day newly at 100% gets its Day Master flag; its Week Finisher flag is set only when it is also a Friday without one; no flag is cleared and nothing else changes |
| `Awards.AwardPass` | app.js:207-261 | over the schedule, flags only go up; every 100% day ends as a Day Master; a Day Master flag is raised only for a date of a 100% day; a Week Finisher flag is raised only for a Friday that the pass itself made a Day Master; a Friday that newly became a Day Master also gets its Week Finisher flag |
| `Awards.AwardPassStep` | app.js:207-261 | the head day's award followed by the pass over the remaining days keeps all five properties of the pass |
| `Awards.AwardPassSettled` | app.js:244 | a pass over days that are all already awarded changes nothing |
| `Awards.AwardPassIdempotent` | app.js:239-261 | running the achievement pass a second time changes nothing |
| `Gamification.AddXP` | app.js:94-99 | the total grows by n; today's points restart from 0 on a new day before n is added; the last XP day becomes today; streaks and badges are unchanged |
| `Gamification.AddXPAccumulates` | app.js:94-99 | two awards on the same day equal one award of their sum |
| `Gamification.AddXPKeepsConsistent` | app.js:94-99 | non-negative awards keep 0 <= xpToday <= xpTotal and never lower the total |
| `Gamification.UpdateStreak` | app.js:311-313 | the current streak is replaced; the best is the running maximum, so it never decreases and is at least the current streak |
| `Gamification.UpdateStreakIdempotent` | app.js:311-313 | updating twice with the same streak equals updating once |
| `Gamification.Give` | app.js:331-333 | the badge is set afterwards; an already set badge leaves the map unchanged; no other badge changes and no flag is cleared |
| `Gamification.GiveDue` | app.js:335-343 | after giving the listed badges whose conditions hold, a badge is set exactly when it was set before or it is listed and due |
| `Gamification.GrantBadges` | app.js:323-344 | a badge is set afterwards exactly when it was set before or its condition holds now; flags only go up; a flag changes only if it was unset and its condition holds |
| `Gamification.GrantBadgesIdempotent` | app.js:323-344 | re-granting with the same facts changes nothing |
| `Document.EnsureEntries` | app.js:207-208 | the render pass creates all-zero entries only for schedule days that lack one; existing entries and what every date reads as are unchanged |
| `Document.EnsureEntriesSettled` | app.js:208 | when every schedule day has an entry, nothing is created |
| `Document.StreakReadsActivity` | app.js:299-305 | two stores with the same active dates give the same streak |
| `Document.Render` | app.js:188-345 | a render pass changes no counter and no XP; achievement, badge and best-streak values only go up; every 100% schedule day is a Day Master, and a Day Master flag is raised only for a 100% schedule day; a Week Finisher flag is raised only for a Friday the pass made a Day Master; the streak is the one the stored progress gives from today; a badge is held afterwards exactly when it was held before or is due by the new achievements, the schedule's totals and the new streak |
| `Document.RenderIdempotent` | app.js:188-345 | a second render pass on the same day changes nothing |
| `Document.OnMore` | app.js:173-180 | the "+" button raises the field by one below 999; other dates keep their counts; one XP point is added and today becomes the last XP day; Day Master and Week Finisher flags, badges and the best streak only go up; the configuration is unchanged; the following render pass sets the streak from the raised counts, and every schedule day at 100% after the raise is a Day Master |
| `Document.OnLess` | app.js:169-172 | the "-" button lowers the field by one above 0; other dates keep their counts; no XP, no achievement and no configuration change |
| `Document.MoreThenLessOnDocument` | app.js:169-180 | "+" then "-" on a field below 999 leaves its count where it was |
| `Document.OnResetDay` | app.js:269 | the reset zeroes the date; other dates keep their counts; Day Master and Week Finisher flags and badges only go up, the XP total is kept, and the configuration is unchanged; the following render pass sets the streak from the zeroed store |
| `Document.Export` | app.js:390-391 | the export carries every part of the document: a configuration that merges back to the current one, the progress, the achievements and the gamification state |
| `Document.Accept` | app.js:405-409 | a file is accepted exactly when it has both a configuration and progress; missing achievements and gamification state are defaulted; the configuration is merged over the defaults |
| `Document.Import` | app.js:398-415 | a file lacking a configuration or progress leaves the current document unchanged; an accepted file replaces it: the configuration is the file's merged over the defaults, every day reads the file's counters, the file's (or the default) flags only go up, its XP total is kept, and the streak is the one the file's progress gives from today |
| `Document.ExportImportRoundTrip` | app.js:390-410 | an exported document is accepted back unchanged; a rendered document survives export and import unchanged |
| `Document.ImportDefaults` | app.js:405-409 | a file without gamification state is accepted with a fresh one; a file without progress is rejected with no change |
| `Document.OneDaySprintCompleted` | app.js:239-247 | completing every target of the one-day sprint from 2025-08-20 makes the day a Day Master and grants the Day Master badge |

## Left out

- DOM and view code is not modelled: `renderSlot`, `counterRow` element
  building, cards, `openSettings`, `openAchievementsList`, `ensureXPBadge`,
  `ensureStreakBadge`, and the per-slot "done" display.
- Cosmetic timers and randomness are not modelled: `celebrate`,
  `megaCelebrate`, `toast`, `setTimeout` and `Math.random`.
- Persistence is not modelled: `localStorage` save/load, `FileReader`, the
  Blob download and JSON parsing. A document is a value, saving is a no-op,
  and a file that does not parse is simply not imported.
- The first load of a stored document (app.js:18-21) is not modelled; only
  its no-storage case (`Document.DefaultDocument`) is.
- The global wipe (app.js:454) is not modelled. It leaves achievements and
  gamification state unset, so the next render pass throws.
- JavaScript `Date` mechanics are abstracted to day numbers: the local-time
  parse against the UTC `toISOString` key, daylight-saving shifts in the
  streak's 24-hour steps, `toLocaleDateString`, and `new Date()` for today
  (today is a parameter).
- `saveSettings` form parsing is not modelled. Its effect is a replaced
  configuration followed by a render pass, `Render(doc.(cfg := c), today)`
  (app.js:387).
- Numbers are unbounded integers. `Number(...)` coercions of strings, `null`,
  `NaN` and non-integers are not modelled. Stored entries are taken to have
  every slot and counter. In the source, a missing slot makes the render
  pass throw (app.js:214). A missing counter reads as `NaN` through `clamp`,
  and a null one reads as 0 (app.js:27, 214). The "+" and "-" buttons then
  store `NaN`, or 1 and 0 (app.js:170, 174). None of that is modelled.
- Partial `achievements` and `gamify` objects in an imported file are not
  modelled. `Document.Imported` holds each as a whole part, either present
  or absent. The source fills in their missing fields one by one, for example
  `streakBest || 0`, `g.badges ||`, `a.days || {}` and `g.streak || 0`
  (app.js:245, 253, 313, 324-328, 342).
- The document's `version` field, and fields unknown to the app in an
  imported file, are not modelled.
- Imported keys that are well-formed ISO date text are taken to be the
  matching `Iso` key. Text that does not parse as a date is a `Raw` key.
- `Stats.DayPct`: computed with exact rational rounding. The source's
  floating-point division can round a value one step differently when it
  lies within rounding error of a half.
- `Stats.TotalsAll`: reads missing entries as zeros instead of creating
  them. Its `getProgressFor` calls create exactly the entries that the
  render pass's day loop has already created (`Document.EnsureEntries`).
- The celebration when a field reaches its target exactly (app.js:179) is
  not modelled; it is cosmetic.
- Quests, stickers, levels, the XP multiplier and the first-move bonus are
  not modelled, because they are not part of this version of the app.

=== FILE: awards.dfy ===
/** The write-once achievement maps: Day Master for each date first seen at
    100%, and Week Finisher for such a date when it is a Friday. */
module Awards {
  import opened Dates
  import opened Progress
  import opened Schedule
  import opened Stats

  datatype Achievements = Achievements(days: map<Key, bool>, weeks: map<Key, bool>, challenge12: bool)

  /** What a document without achievements is given. */
  const NoAchievements := Achievements(map[], map[], false)

  /** The flag under `k` is set (an absent flag reads as false). */
  predicate Awarded<K>(m: map<K, bool>, k: K) {
    k in m && m[k]
  }

  /** `k`'s flag was added or changed from `m` to `m'`. */
  predicate Changed<K>(m: map<K, bool>, m': map<K, bool>, k: K) {
    k in m' && (k !in m || m'[k] != m[k])
  }

  /** `m'` keeps every key of `m`, and every flag that differs is true: flags
      only ever go from unset to set. */
  ghost predicate OnlyRaises<K(!new)>(m: map<K, bool>, m': map<K, bool>) {
    && m.Keys <= m'.Keys
    && forall k :: Changed(m, m', k) ==> m'[k]
  }

  lemma OnlyRaisesTransitive<K(!new)>(a: map<K, bool>, b: map<K, bool>, c: map<K, bool>)
    requires OnlyRaises(a, b) && OnlyRaises(b, c)
    ensures OnlyRaises(a, c)
  {
    forall k | Changed(a, c, k) ensures c[k] {
      if k in b && Changed(a, b, k) && !Changed(b, c, k) {
        assert b[k];
      }
    }
  }

  /** The day is 100% by its clamped progress in `store`. */
  predicate DayIs100(day: Day, store: Store) {
    IsDay100(day.targets, ClampToTargets(Lookup(store, Iso(day.date)), day.targets))
  }

  /** The award step of one day of the render pass. A day newly at 100% gets
      its Day Master flag; if it is also a Friday without a Week Finisher
      flag, it gets that too. Nothing else changes. */
  function AwardDay(a: Achievements, day: Day, is100: bool): (r: Achievements)
    ensures OnlyRaises(a.days, r.days) && OnlyRaises(a.weeks, r.weeks)
    ensures r.challenge12 == a.challenge12
    ensures forall k :: Awarded(r.days, k) <==> Awarded(a.days, k) || (is100 && k == Iso(day.date))
    ensures forall k :: Changed(a.days, r.days, k) ==> k == Iso(day.date) && is100
    ensures forall k :: Changed(a.weeks, r.weeks, k) ==>
      && k == Iso(day.date) && Weekday(day.date) == Friday && is100 && !Awarded(a.days, k)
    ensures is100 && !Awarded(a.days, Iso(day.date)) && Weekday(day.date) == Friday ==> Awarded(r.weeks, Iso(day.date))
  {
    var k := Iso(day.date);
    if is100 && !Awarded(a.days, k) then
      var days := a.days[k := true];
      if Weekday(day.date) == Friday && !Awarded(a.weeks, k) then
        Achievements(days, a.weeks[k := true], a.challenge12)
      else
        a.(days := days)
    else
      a
  }

  /** Every 100% day among `days` has its Day Master flag in `r`. */
  ghost predicate FullDaysAwarded(r: Achievements, days: seq<Day>, store: Store) {
    forall j :: 0 <= j < |days| && DayIs100(days[j], store) ==> Awarded(r.days, Iso(days[j].date))
  }

  /** A Day Master flag that differs from `a` to `r` belongs to a 100% day
      among `days`. */
  ghost predicate RaisedForFullDays(a: Achievements, r: Achievements, days: seq<Day>, store: Store) {
    forall k :: Changed(a.days, r.days, k) ==> IsFullDay(k, days, store)
  }

  /** `k` is the date of a 100% day among `days`. */
  ghost predicate IsFullDay(k: Key, days: seq<Day>, store: Store) {
    exists j :: 0 <= j < |days| && k == Iso(days[j].date) && DayIs100(days[j], store)
  }

  /** Some element of `s` has `P` exactly when the head has it or some element
      of the tail has it. */
  lemma SomeCons<T>(s: seq<T>, P: T -> bool)
    requires |s| > 0
    ensures (exists j :: 0 <= j < |s| && P(s[j])) <==> P(s[0]) || exists j :: 0 <= j < |s[1..]| && P(s[1..][j])
  {
    if exists j :: 0 <= j < |s[1..]| && P(s[1..][j]) {
      var j :| 0 <= j < |s[1..]| && P(s[1..][j]);
      assert s[1..][j] == s[j + 1];
    }
    if exists j :: 0 <= j < |s| && P(s[j]) {
      var j :| 0 <= j < |s| && P(s[j]);
      if j > 0 {
        assert s[1..][j - 1] == s[j];
      }
    }
  }

  /** The head day and the tail's 100% days are the 100% days of the whole
      list. */
  lemma IsFullDayCons(k: Key, days: seq<Day>, store: Store)
    requires |days| > 0
    ensures IsFullDay(k, days, store) <==>
      (k == Iso(days[0].date) && DayIs100(days[0], store)) || IsFullDay(k, days[1..], store)
  {
    SomeCons(days, (d: Day) => k == Iso(d.date) && DayIs100(d, store));
  }

  /** A Week Finisher flag that differs from `a` to `r` belongs to a Friday
      that became a Day Master from `a` to `r`. */
  ghost predicate WeeksOnFridays(a: Achievements, r: Achievements) {
    forall k: Key :: Changed(a.weeks, r.weeks, k) ==>
      k.Iso? && Weekday(k.day) == Friday && !Awarded(a.days, k) && Awarded(r.days, k)
  }

  /** A Friday that became a Day Master from `a` to `r` has its Week Finisher
      flag in `r`. */
  ghost predicate FridaysFinished(a: Achievements, r: Achievements) {
    forall n :: Weekday(n) == Friday && Awarded(r.days, Iso(n)) && !Awarded(a.days, Iso(n)) ==> Awarded(r.weeks, Iso(n))
  }

  /** What a pass over `days` promises of its result `r` from `a`: flags only
      go up, and the four properties above. */
  ghost predicate PassProps(a: Achievements, r: Achievements, days: seq<Day>, store: Store) {
    && OnlyRaises(a.days, r.days) && OnlyRaises(a.weeks, r.weeks)
    && FullDaysAwarded(r, days, store)
    && RaisedForFullDays(a, r, days, store)
    && WeeksOnFridays(a, r)
    && FridaysFinished(a, r)
  }

  /** The achievement part of the render pass over the schedule's days: the
      pass properties hold and the challenge flag is untouched. */
  function AwardPass(a: Achievements, days: seq<Day>, store: Store): (r: Achievements)
    ensures PassProps(a, r, days, store)
    ensures r.challenge12 == a.challenge12
    decreases |days|
  {
    if |days| == 0 then a
    else
      var a1 := AwardDay(a, days[0], DayIs100(days[0], store));
      var r := AwardPass(a1, days[1..], store);
      AwardPassStep(a, a1, r, days, store);
      r
  }

  /** The inductive step of `AwardPass`: the head day's award followed by the
      tail's pass. */
  lemma AwardPassStep(a: Achievements, a1: Achievements, r: Achievements, days: seq<Day>, store: Store)
    requires |days| > 0
    requires a1 == AwardDay(a, days[0], DayIs100(days[0], store))
    requires PassProps(a1, r, days[1..], store)
    ensures PassProps(a, r, days, store)
  {
    OnlyRaisesTransitive(a.days, a1.days, r.days);
    OnlyRaisesTransitive(a.weeks, a1.weeks, r.weeks);
    StepFullDays(a, a1, r, days, store);
    StepRaisedFor(a, a1, r, days, store);
    StepFridays(a, a1, r, days[0], store);
    StepWeeks(a, a1, r, days[0], store);
  }

  lemma StepFullDays(a: Achievements, a1: Achievements, r: Achievements, days: seq<Day>, store: Store)
    requires |days| > 0
    requires a1 == AwardDay(a, days[0], DayIs100(days[0], store))
    requires OnlyRaises(a1.days, r.days) && FullDaysAwarded(r, days[1..], store)
    ensures FullDaysAwarded(r, days, store)
  {
    forall j | 0 <= j < |days| && DayIs100(days[j], store) ensures Awarded(r.days, Iso(days[j].date)) {
      if j == 0 {
        assert Awarded(a1.days, Iso(days[0].date));
      } else {
        assert days[1..][j - 1] == days[j];
      }
    }
  }

  lemma StepRaisedFor(a: Achievements, a1: Achievements, r: Achievements, days: seq<Day>, store: Store)
    requires |days| > 0
    requires forall k :: Changed(a.days, a1.days, k) ==> k == Iso(days[0].date) && DayIs100(days[0], store)
    requires RaisedForFullDays(a1, r, days[1..], store)
    ensures RaisedForFullDays(a, r, days, store)
  {
    forall k | Changed(a.days, r.days, k) ensures IsFullDay(k, days, store) {
      IsFullDayCons(k, days, store);
      if !Changed(a1.days, r.days, k) {
        assert Changed(a.days, a1.days, k);
      }
    }
  }

  lemma StepWeeks(a: Achievements, a1: Achievements, r: Achievements, day: Day, store: Store)
    requires a1 == AwardDay(a, day, DayIs100(day, store))
    requires OnlyRaises(a1.days, r.days) && WeeksOnFridays(a1, r)
    ensures WeeksOnFridays(a, r)
  {
    forall k: Key | Changed(a.weeks, r.weeks, k)
      ensures k.Iso? && Weekday(k.day) == Friday && !Awarded(a.days, k) && Awarded(r.days, k)
    {
      if !Changed(a1.weeks, r.weeks, k) {
        assert Changed(a.weeks, a1.weeks, k);
        assert Awarded(a1.days, k);
      }
    }
  }

  lemma StepFridays(a: Achievements, a1: Achievements, r: Achievements, day: Day, store: Store)
    requires a1 == AwardDay(a, day, DayIs100(day, store))
    requires OnlyRaises(a1.weeks, r.weeks) && FridaysFinished(a1, r)
    ensures FridaysFinished(a, r)
  {
    forall n | Weekday(n) == Friday && Awarded(r.days, Iso(n)) && !Awarded(a.days, Iso(n))
      ensures Awarded(r.weeks, Iso(n))
    {
      if Awarded(a1.days, Iso(n)) {
        assert Changed(a.days, a1.days, Iso(n));
        assert Awarded(a1.weeks, Iso(n));
      }
    }
  }

  /** A pass over days that are all already awarded changes nothing. */
  lemma {:induction false} AwardPassSettled(a: Achievements, days: seq<Day>, store: Store)
    requires forall j :: 0 <= j < |days| && DayIs100(days[j], store) ==> Awarded(a.days, Iso(days[j].date))
    ensures AwardPass(a, days, store) == a
    decreases |days|
  {
    if |days| > 0 {
      assert AwardDay(a, days[0], DayIs100(days[0], store)) == a;
      forall j | 0 <= j < |days[1..]| && DayIs100(days[1..][j], store)
        ensures Awarded(a.days, Iso(days[1..][j].date))
      {
        assert days[1..][j] == days[j + 1];
      }
      AwardPassSettled(a, days[1..], store);
    }
  }

  /** Re-running the achievement pass is a no-op. */
  lemma AwardPassIdempotent(a: Achievements, days: seq<Day>, store: Store)
    ensures AwardPass(AwardPass(a, days, store), days, store) == AwardPass(a, days, store)
  {
    AwardPassSettled(AwardPass(a, days, store), days, store);
  }
}

=== FILE: config.dfy ===
/** The sprint configuration, its defaults, and the field-by-field merge of a
    stored or imported configuration over those defaults. */
module Config {
  import opened Optional

  datatype Config = Config(
    startDate: int,
    totalDays: int,
    skipWeekday: int,
    times: seq<string>,
    rotation: seq<string>,
    pushupMiddayProgressive: bool,
    basePushups: int,
    baseLifts: int,
    progressiveMax: int)

  /** 2025-08-20, a Wednesday, as a day number. */
  const DefaultStart := 20320

  /** Twelve days from 2025-08-20, Sundays off, twelve repetitions per target. */
  const Default := Config(
    DefaultStart, 12, 0,
    ["8:30 AM", "12:00 PM", "4:00 PM"],
    ["Biceps Curl", "Shoulder Press", "Bent-over Row"],
    false, 12, 12, 12)

  /** The numeric fallback `x || 12`: zero is falsy and becomes 12. */
  function OrTwelve(x: int): int {
    if x == 0 then 12 else x
  }

  /** A configuration as it is found in a stored or imported document: each
      field may be absent. */
  datatype ConfigFields = ConfigFields(
    startDate: Option<int>,
    totalDays: Option<int>,
    skipWeekday: Option<int>,
    times: Option<seq<string>>,
    rotation: Option<seq<string>>,
    pushupMiddayProgressive: Option<bool>,
    basePushups: Option<int>,
    baseLifts: Option<int>,
    progressiveMax: Option<int>)

  const NoFields := ConfigFields(None, None, None, None, None, None, None, None, None)

  /** Copy the defaults, then every field the document carries over them. */
  function Merge(p: ConfigFields): (c: Config)
    ensures p.startDate.Some? ==> c.startDate == p.startDate.value
    ensures p.startDate.None? ==> c.startDate == Default.startDate
    ensures p.totalDays.Some? ==> c.totalDays == p.totalDays.value
    ensures p.totalDays.None? ==> c.totalDays == Default.totalDays
    ensures p.skipWeekday.Some? ==> c.skipWeekday == p.skipWeekday.value
    ensures p.skipWeekday.None? ==> c.skipWeekday == Default.skipWeekday
    ensures p.times.Some? ==> c.times == p.times.value
    ensures p.times.None? ==> c.times == Default.times
    ensures p.rotation.Some? ==> c.rotation == p.rotation.value
    ensures p.rotation.None? ==> c.rotation == Default.rotation
    ensures p.pushupMiddayProgressive.Some? ==> c.pushupMiddayProgressive == p.pushupMiddayProgressive.value
    ensures p.pushupMiddayProgressive.None? ==> c.pushupMiddayProgressive == Default.pushupMiddayProgressive
    ensures p.basePushups.Some? ==> c.basePushups == p.basePushups.value
    ensures p.basePushups.None? ==> c.basePushups == Default.basePushups
    ensures p.baseLifts.Some? ==> c.baseLifts == p.baseLifts.value
    ensures p.baseLifts.None? ==> c.baseLifts == Default.baseLifts
    ensures p.progressiveMax.Some? ==> c.progressiveMax == p.progressiveMax.value
    ensures p.progressiveMax.None? ==> c.progressiveMax == Default.progressiveMax
  {
    Config(
      p.startDate.GetOr(Default.startDate),
      p.totalDays.GetOr(Default.totalDays),
      p.skipWeekday.GetOr(Default.skipWeekday),
      p.times.GetOr(Default.times),
      p.rotation.GetOr(Default.rotation),
      p.pushupMiddayProgressive.GetOr(Default.pushupMiddayProgressive),
      p.basePushups.GetOr(Default.basePushups),
      p.baseLifts.GetOr(Default.baseLifts),
      p.progressiveMax.GetOr(Default.progressiveMax))
  }

  /** A complete configuration written out with every field present; merging
      it over the defaults gives it back unchanged. */
  function Fields(c: Config): (p: ConfigFields)
    ensures Merge(p) == c
  {
    ConfigFields(
      Some(c.startDate), Some(c.totalDays), Some(c.skipWeekday), Some(c.times),
      Some(c.rotation), Some(c.pushupMiddayProgressive), Some(c.basePushups),
      Some(c.baseLifts), Some(c.progressiveMax))
  }

  /** A document without configuration fields gets the default configuration. */
  lemma MergeNothing()
    ensures Merge(NoFields) == Default
  {
  }
}

=== FILE: counters.dfy ===
/** The three-slot, three-field record used both for a day's targets and for
    the repetitions done on a day. */
module Counters {

  datatype Slot = Morning | Midday | Evening

  datatype Field = Pushups | DumbR | DumbL

  /** Push-ups and right-arm and left-arm dumbbell lifts of one slot. */
  datatype Counts = Counts(pushups: int, dumbR: int, dumbL: int) {

    function Get(f: Field): int {
      match f
      case Pushups => pushups
      case DumbR => dumbR
      case DumbL => dumbL
    }

    function With(f: Field, v: int): (c: Counts)
      ensures c.Get(f) == v
      ensures forall g :: g != f ==> c.Get(g) == Get(g)
    {
      match f
      case Pushups => this.(pushups := v)
      case DumbR => this.(dumbR := v)
      case DumbL => this.(dumbL := v)
    }

    function Total(): int {
      pushups + dumbR + dumbL
    }
  }

  /** One day: the morning, midday and evening slots. */
  datatype Entry = Entry(morning: Counts, midday: Counts, evening: Counts) {

    function At(s: Slot): Counts {
      match s
      case Morning => morning
      case Midday => midday
      case Evening => evening
    }

    function Get(s: Slot, f: Field): int {
      At(s).Get(f)
    }

    /** The entry with one field of one slot replaced; the other eight stay. */
    function With(s: Slot, f: Field, v: int): (e: Entry)
      ensures e.Get(s, f) == v
      ensures forall s', f' :: s' != s || f' != f ==> e.Get(s', f') == Get(s', f')
    {
      match s
      case Morning => this.(morning := morning.With(f, v))
      case Midday => this.(midday := midday.With(f, v))
      case Evening => this.(evening := evening.With(f, v))
    }

    /** The sum of all nine fields. */
    function Total(): int {
      morning.Total() + midday.Total() + evening.Total()
    }
  }

  const ZeroCounts := Counts(0, 0, 0)

  /** The all-zero entry a day starts from and a reset returns it to. */
  const Zero := Entry(ZeroCounts, ZeroCounts, ZeroCounts)

  /** The largest value a counter button can reach. */
  const MaxCount := 999

  predicate InRange(e: Entry) {
    forall s, f :: 0 <= e.Get(s, f) <= MaxCount
  }

  predicate NonNegative(e: Entry) {
    forall s, f :: 0 <= e.Get(s, f)
  }

  /** Total spelled out field by field, so that quantified facts about `Get`
      can be summed. */
  lemma TotalByFields(e: Entry)
    ensures e.Total() ==
      e.Get(Morning, Pushups) + e.Get(Morning, DumbR) + e.Get(Morning, DumbL) +
      e.Get(Midday, Pushups) + e.Get(Midday, DumbR) + e.Get(Midday, DumbL) +
      e.Get(Evening, Pushups) + e.Get(Evening, DumbR) + e.Get(Evening, DumbL)
  {
  }
}

=== FILE: dates.dfy ===
/** Calendar days, weekdays and the keys of the document's date-indexed maps. */
module Dates {

  /** Days are numbered from 1970-01-01, day 0, which was a Thursday.
      Weekdays count from Sunday = 0 to Saturday = 6. */
  function Weekday(n: int): (w: int)
    ensures 0 <= w < 7
  {
    (n + 4) % 7
  }

  const Sunday := 0
  const Friday := 5

  /** The next day's weekday is one further round the week. */
  lemma WeekdayNext(n: int)
    ensures Weekday(n + 1) == (Weekday(n) + 1) % 7
  {
  }

  /** A rest day: a non-negative skip value names the weekday that is left out;
      a negative one (and any value above 6) leaves no day out. */
  predicate IsRestDay(skip: int, n: int) {
    skip >= 0 && Weekday(n) == skip
  }

  /** Two consecutive days are never both rest days. */
  lemma RestDayNotTwice(skip: int, n: int)
    ensures !(IsRestDay(skip, n) && IsRestDay(skip, n + 1))
  {
    WeekdayNext(n);
  }

  /** `b` is the first non-rest day from `d` on. As no two consecutive days
      are rest days, it is `d` itself or, when `d` is a rest day, the day
      after. */
  predicate FirstWorkday(skip: int, d: int, b: int) {
    && (b == d || (b == d + 1 && IsRestDay(skip, d)))
    && !IsRestDay(skip, b)
  }

  /** A key of a date-indexed map. A well-formed ISO date (YYYY-MM-DD) is held
      as its day number, so the date-to-key map `Iso` is injective; `Raw` holds
      any other text: the empty "last XP day" of a fresh document, or a key an
      imported document happens to carry. */
  datatype Key = Iso(day: int) | Raw(text: string)
}

=== FILE: document.dfy ===
/** The persisted document and the operations the user's actions drive: the
    render pass that re-derives achievements, streak and badges, the counter
    buttons, the day reset, and import and export. */
module Document {
  import opened Optional
  import opened Dates
  import opened Counters
  import opened Config
  import opened Schedule
  import opened Progress
  import opened Stats
  import opened Streak
  import opened Awards
  import opened Gamification

  datatype Document = Document(cfg: Config, progress: Store, achievements: Achievements, gamify: Gamify)

  /** The document a first start (nothing stored) begins with. */
  const DefaultDocument := Document(Default, map[], NoAchievements, NewGamify)

  /** The render pass's `getProgressFor` on every schedule day: each missing
      entry is created as all zeros, existing entries are untouched, and what
      any date reads as does not change. */
  function EnsureEntries(store: Store, days: seq<Day>): (r: Store)
    ensures forall k :: k in store ==> k in r && r[k] == store[k]
    ensures forall j :: 0 <= j < |days| ==> Iso(days[j].date) in r
    ensures forall k :: k in r && k !in store ==> r[k] == Zero
    ensures forall k :: k in r && k !in store ==> exists j :: 0 <= j < |days| && k == Iso(days[j].date)
    ensures forall k :: Lookup(r, k) == Lookup(store, k)
    decreases |days|
  {
    if |days| == 0 then store
    else
      var s1 := GetProgressFor(store, Iso(days[0].date)).1;
      var r := EnsureEntries(s1, days[1..]);
      assert forall j :: 0 <= j < |days[1..]| ==> days[1..][j] == days[j + 1];
      r
  }

  /** When every schedule day already has an entry nothing is created. */
  lemma {:induction false} EnsureEntriesSettled(store: Store, days: seq<Day>)
    requires forall j :: 0 <= j < |days| ==> Iso(days[j].date) in store
    ensures EnsureEntries(store, days) == store
    decreases |days|
  {
    if |days| > 0 {
      assert forall j :: 0 <= j < |days[1..]| ==> days[1..][j] == days[j + 1];
      EnsureEntriesSettled(store, days[1..]);
    }
  }

  /** The streak reads only which dates are active. */
  lemma {:induction false} StreakReadsActivity(s1: Store, s2: Store, skip: int, d: int, fuel: nat)
    requires forall k :: Active(s1, k) <==> Active(s2, k)
    ensures StreakFrom(s1, skip, d, fuel) == StreakFrom(s2, skip, d, fuel)
    decreases fuel
  {
    if fuel > 0 {
      StreakReadsActivity(s1, s2, skip, d - 1, fuel - 1);
    }
  }

  /** The pure part of `render`: build the schedule, create the missing day
      entries, award Day Master and Week Finisher for days newly at 100%,
      recompute the streak and its best, then grant the badges. */
  function RenderState(doc: Document, today: int): Document {
    var days := BuildDays(doc.cfg);
    var store := EnsureEntries(doc.progress, days);
    var ach := AwardPass(doc.achievements, days, store);
    var st := StreakGlobal(doc.cfg.skipWeekday, store, today);
    var g := UpdateStreak(doc.gamify, st);
    var totals := TotalsAll(days, store);
    Document(doc.cfg, store, ach, g.(badges := GrantBadges(g.badges, ach, totals, st)))
  }

  /** What a render pass promises: no counter and no XP changes; flags and the
      best streak only go up; every 100% schedule day is a Day Master; the
      streak is the one the stored progress gives from today. */
  function Render(doc: Document, today: int): (r: Document)
    ensures r.cfg == doc.cfg
    ensures forall k :: k in doc.progress ==> k in r.progress && r.progress[k] == doc.progress[k]
    ensures forall k :: Lookup(r.progress, k) == Lookup(doc.progress, k)
    ensures OnlyRaises(doc.achievements.days, r.achievements.days)
    ensures OnlyRaises(doc.achievements.weeks, r.achievements.weeks)
    ensures r.achievements.challenge12 == doc.achievements.challenge12
    ensures forall j :: 0 <= j < |BuildDays(doc.cfg)| && DayIs100(BuildDays(doc.cfg)[j], doc.progress) ==>
      Awarded(r.achievements.days, Iso(BuildDays(doc.cfg)[j].date))
    ensures forall k :: Changed(doc.achievements.days, r.achievements.days, k) ==> IsFullDay(k, BuildDays(doc.cfg), doc.progress)
    ensures forall k: Key :: Changed(doc.achievements.weeks, r.achievements.weeks, k) ==>
      k.Iso? && Weekday(k.day) == Friday && !Awarded(doc.achievements.days, k) && Awarded(r.achievements.days, k)
    ensures r.gamify.xpTotal == doc.gamify.xpTotal && r.gamify.xpToday == doc.gamify.xpToday
    ensures r.gamify.lastXPDay == doc.gamify.lastXPDay
    ensures r.gamify.streak == StreakGlobal(doc.cfg.skipWeekday, doc.progress, today)
    ensures r.gamify.streakBest >= doc.gamify.streakBest && r.gamify.streakBest >= r.gamify.streak
    ensures OnlyRaises(doc.gamify.badges, r.gamify.badges)
    ensures forall id :: Awarded(r.gamify.badges, id) <==>
      Awarded(doc.gamify.badges, id) || BadgeDue(id, r.achievements, TotalsAll(BuildDays(doc.cfg), doc.progress), r.gamify.streak)
  {
    var r := RenderState(doc, today);
    var days := BuildDays(doc.cfg);
    var store := EnsureEntries(doc.progress, days);
    assert forall k :: Active(store, k) <==> Active(doc.progress, k) by {
      forall k ensures Active(store, k) <==> Active(doc.progress, k) {
        assert Lookup(store, k) == Lookup(doc.progress, k);
      }
    }
    StreakReadsActivity(store, doc.progress, StreakSkip(doc.cfg.skipWeekday), today, Guard);
    forall j | 0 <= j < |days| ensures DayIs100(days[j], store) == DayIs100(days[j], doc.progress) {
      assert Lookup(store, Iso(days[j].date)) == Lookup(doc.progress, Iso(days[j].date));
    }
    TotalsReadOnlyDays(days, store, doc.progress);
    r
  }

  /** Re-evaluation is idempotent: a second render pass on the same day changes
      nothing. */
  lemma RenderIdempotent(doc: Document, today: int)
    ensures Render(Render(doc, today), today) == Render(doc, today)
  {
    var days := BuildDays(doc.cfg);
    var store := EnsureEntries(doc.progress, days);
    var ach := AwardPass(doc.achievements, days, store);
    var st := StreakGlobal(doc.cfg.skipWeekday, store, today);
    var g := UpdateStreak(doc.gamify, st);
    var totals := TotalsAll(days, store);
    var r := Render(doc, today);
    assert r == Document(doc.cfg, store, ach, g.(badges := GrantBadges(g.badges, ach, totals, st)));
    EnsureEntriesSettled(store, days);
    AwardPassIdempotent(doc.achievements, days, store);
    GrantBadgesIdempotent(g.badges, ach, totals, st);
  }

  /** The "+" button: one more on the field (clamped to 999), one XP point,
      then a render pass. */
  function OnMore(doc: Document, today: int, k: Key, s: Slot, f: Field): (r: Document)
    ensures var v := Lookup(doc.progress, k).Get(s, f);
      0 <= v < MaxCount ==> Lookup(r.progress, k).Get(s, f) == v + 1
    ensures forall k' :: k' != k ==> Lookup(r.progress, k') == Lookup(doc.progress, k')
    ensures r.gamify.xpTotal == doc.gamify.xpTotal + 1
    ensures r.gamify.lastXPDay == Iso(today)
    ensures OnlyRaises(doc.achievements.days, r.achievements.days)
    ensures OnlyRaises(doc.achievements.weeks, r.achievements.weeks)
    ensures OnlyRaises(doc.gamify.badges, r.gamify.badges)
    ensures r.gamify.streakBest >= doc.gamify.streakBest
    ensures r.cfg == doc.cfg
    ensures r.gamify.streak == StreakGlobal(doc.cfg.skipWeekday, More(doc.progress, k, s, f), today)
    ensures forall j :: 0 <= j < |BuildDays(doc.cfg)| && DayIs100(BuildDays(doc.cfg)[j], More(doc.progress, k, s, f)) ==>
      Awarded(r.achievements.days, Iso(BuildDays(doc.cfg)[j].date))
  {
    var store := More(doc.progress, k, s, f);
    assert forall k' :: k' != k ==> Lookup(store, k') == Lookup(doc.progress, k');
    Render(doc.(progress := store, gamify := AddXP(doc.gamify, today, 1)), today)
  }

  /** The "-" button: one less on the field (clamped to 0). It awards no XP
      and runs no render pass. */
  function OnLess(doc: Document, k: Key, s: Slot, f: Field): (r: Document)
    ensures var v := Lookup(doc.progress, k).Get(s, f);
      0 < v <= MaxCount ==> Lookup(r.progress, k).Get(s, f) == v - 1
    ensures forall k' :: k' != k ==> Lookup(r.progress, k') == Lookup(doc.progress, k')
    ensures r.gamify == doc.gamify && r.achievements == doc.achievements && r.cfg == doc.cfg
  {
    var store := Less(doc.progress, k, s, f);
    assert forall k' :: k' != k ==> Lookup(store, k') == Lookup(doc.progress, k');
    doc.(progress := store)
  }

  /** "+" then "-" on a field below 999 leaves its count where it was. */
  lemma MoreThenLessOnDocument(doc: Document, today: int, k: Key, s: Slot, f: Field)
    requires 0 <= Lookup(doc.progress, k).Get(s, f) < MaxCount
    ensures Lookup(OnLess(OnMore(doc, today, k, s, f), k, s, f).progress, k).Get(s, f) == Lookup(doc.progress, k).Get(s, f)
  {
  }

  /** The day reset: the date's counters become 0, then a render pass.
      Achievement flags and badges already earned are kept. */
  function OnResetDay(doc: Document, today: int, k: Key): (r: Document)
    ensures Lookup(r.progress, k) == Zero
    ensures forall k' :: k' != k ==> Lookup(r.progress, k') == Lookup(doc.progress, k')
    ensures OnlyRaises(doc.achievements.days, r.achievements.days)
    ensures OnlyRaises(doc.achievements.weeks, r.achievements.weeks)
    ensures OnlyRaises(doc.gamify.badges, r.gamify.badges)
    ensures r.gamify.xpTotal == doc.gamify.xpTotal
    ensures r.cfg == doc.cfg
    ensures r.gamify.streak == StreakGlobal(doc.cfg.skipWeekday, ResetDay(doc.progress, k), today)
  {
    var store := ResetDay(doc.progress, k);
    assert forall k' :: k' != k ==> Lookup(store, k') == Lookup(doc.progress, k');
    Render(doc.(progress := store), today)
  }

  /** A document as read from an imported file: each top-level part may be
      missing. */
  datatype Imported = Imported(
    cfg: Option<ConfigFields>,
    progress: Option<Store>,
    achievements: Option<Achievements>,
    gamify: Option<Gamify>)

  /** The export: the whole document, every part present, so that an import
      accepts it. */
  function Export(doc: Document): (r: Imported)
    ensures r.cfg.Some? && r.progress.Some?
    ensures Merge(r.cfg.value) == doc.cfg && r.progress.value == doc.progress
    ensures r.achievements == Some(doc.achievements) && r.gamify == Some(doc.gamify)
  {
    Imported(Some(Fields(doc.cfg)), Some(doc.progress), Some(doc.achievements), Some(doc.gamify))
  }

  /** The import's acceptance rule: a file is taken only when it carries both
      a configuration and progress; missing achievements and gamification are
      defaulted, and the configuration is merged over the defaults. */
  function Accept(obj: Imported): (r: Option<Document>)
    ensures r.Some? <==> obj.cfg.Some? && obj.progress.Some?
    ensures r.Some? ==> r.value.progress == obj.progress.value && r.value.cfg == Merge(obj.cfg.value)
    ensures r.Some? ==> r.value.achievements == obj.achievements.GetOr(NoAchievements)
    ensures r.Some? ==> r.value.gamify == obj.gamify.GetOr(NewGamify)
  {
    if obj.cfg.Some? && obj.progress.Some? then
      Some(Document(Merge(obj.cfg.value), obj.progress.value,
        obj.achievements.GetOr(NoAchievements), obj.gamify.GetOr(NewGamify)))
    else
      None
  }

  /** `importData` once the file is parsed: a rejected file leaves the
      current document as it is; an accepted one replaces it and is
      rendered. */
  function Import(doc: Document, obj: Imported, today: int): (r: Document)
    ensures obj.cfg.None? || obj.progress.None? ==> r == doc
    ensures obj.cfg.Some? && obj.progress.Some? ==>
      && r.cfg == Merge(obj.cfg.value)
      && (forall k :: Lookup(r.progress, k) == Lookup(obj.progress.value, k))
      && OnlyRaises(obj.achievements.GetOr(NoAchievements).days, r.achievements.days)
      && OnlyRaises(obj.achievements.GetOr(NoAchievements).weeks, r.achievements.weeks)
      && r.gamify.xpTotal == obj.gamify.GetOr(NewGamify).xpTotal
      && r.gamify.streak == StreakGlobal(r.cfg.skipWeekday, obj.progress.value, today)
  {
    match Accept(obj)
    case None => doc
    case Some(d) => Render(d, today)
  }

  /** Export then import loses nothing: the imported document is the exported
      one, and a document that has been rendered comes back unchanged. */
  lemma ExportImportRoundTrip(doc: Document, other: Document, today: int)
    ensures Accept(Export(doc)) == Some(doc)
    ensures Import(other, Export(Render(doc, today)), today) == Render(doc, today)
  {
    RenderIdempotent(doc, today);
  }

  /** A file without gamification state is accepted with a fresh one; a file
      without progress is rejected and nothing changes. */
  lemma ImportDefaults(doc: Document, cfg: ConfigFields, store: Store, today: int)
    ensures Accept(Imported(Some(cfg), Some(store), None, None)) ==
      Some(Document(Merge(cfg), store, NoAchievements, NewGamify))
    ensures Import(doc, Imported(Some(cfg), None, None, None), today) == doc
  {
  }

  /** The one-day sprint from 2025-08-20 done in full: rendering it makes the
      day a Day Master and grants the Day Master badge. */
  lemma OneDaySprintCompleted(today: int)
    ensures
      var cfg := Default.(totalDays := 1, skipWeekday := -1);
      var done := Entry(Counts(12, 12, 12), Counts(0, 1, 1), Counts(1, 12, 12));
      var r := Render(Document(cfg, map[Iso(DefaultStart) := done], NoAchievements, NewGamify), today);
      Awarded(r.achievements.days, Iso(DefaultStart)) && Awarded(r.gamify.badges, DayMaster)
  {
    var cfg := Default.(totalDays := 1, skipWeekday := -1);
    var done := Entry(Counts(12, 12, 12), Counts(0, 1, 1), Counts(1, 12, 12));
    var doc := Document(cfg, map[Iso(DefaultStart) := done], NoAchievements, NewGamify);
    OneDaySprint();
    var days := BuildDays(cfg);
    assert DayIs100(days[0], doc.progress);
    var r := Render(doc, today);
    assert Awarded(r.achievements.days, Iso(DefaultStart));
    assert Iso(DefaultStart) in r.achievements.days;
    assert |r.achievements.days| >= 1;
  }
}

=== FILE: gamification.dfy ===
/** Experience points, the streak record and the write-once badge map. */
module Gamification {
  import opened Numbers
  import opened Dates
  import opened Stats
  import opened Awards

  type Badges = map<string, bool>

  datatype Gamify = Gamify(
    xpTotal: int,
    xpToday: int,
    lastXPDay: Key,
    streak: int,
    streakBest: int,
    badges: Badges)

  /** What a document without gamification state is given; the last XP day
      is the empty string. */
  const NewGamify := Gamify(0, 0, Raw(""), 0, 0, map[])

  /** `addXP(n)` on day `today`: a new day starts today's count from 0 before
      `n` is added to it and to the total. Streaks and badges stay. */
  function AddXP(g: Gamify, today: int, n: int): (r: Gamify)
    ensures r.xpTotal == g.xpTotal + n
    ensures r.xpToday == if g.lastXPDay == Iso(today) then g.xpToday + n else n
    ensures r.lastXPDay == Iso(today)
    ensures r.streak == g.streak && r.streakBest == g.streakBest && r.badges == g.badges
  {
    var g1 := if g.lastXPDay != Iso(today) then g.(xpToday := 0, lastXPDay := Iso(today)) else g;
    g1.(xpToday := g1.xpToday + n, xpTotal := g1.xpTotal + n)
  }

  /** Today's points never exceed the total, and neither is negative. */
  predicate XPConsistent(g: Gamify) {
    0 <= g.xpToday <= g.xpTotal
  }

  /** Awards made on one day add up: two awards equal one of their sum. */
  lemma AddXPAccumulates(g: Gamify, today: int, m: int, n: int)
    ensures AddXP(AddXP(g, today, m), today, n) == AddXP(g, today, m + n)
  {
  }

  /** Non-negative awards keep the points consistent and never lower the total. */
  lemma AddXPKeepsConsistent(g: Gamify, today: int, n: int)
    requires XPConsistent(g) && n >= 0
    ensures XPConsistent(AddXP(g, today, n))
    ensures AddXP(g, today, n).xpTotal >= g.xpTotal
  {
  }

  /** The render pass's streak update: the current streak is replaced, the
      best streak is the running maximum and never decreases. */
  function UpdateStreak(g: Gamify, st: int): (r: Gamify)
    ensures r.streak == st
    ensures r.streakBest >= g.streakBest && r.streakBest >= st
    ensures r.streakBest == g.streakBest || r.streakBest == st
    ensures r.xpTotal == g.xpTotal && r.xpToday == g.xpToday && r.lastXPDay == g.lastXPDay && r.badges == g.badges
  {
    g.(streak := st, streakBest := Max(g.streakBest, st))
  }

  /** Updating twice with the same streak is updating once. */
  lemma UpdateStreakIdempotent(g: Gamify, st: int)
    ensures UpdateStreak(UpdateStreak(g, st), st) == UpdateStreak(g, st)
  {
  }

  /** `give`: set a badge's flag when it is not yet set; otherwise nothing
      changes. No other badge changes and no flag is ever cleared. */
  function Give(b: Badges, id: string): (r: Badges)
    ensures Awarded(r, id)
    ensures Awarded(b, id) ==> r == b
    ensures OnlyRaises(b, r)
    ensures forall k :: Changed(b, r, k) ==> k == id && !Awarded(b, id)
    ensures r.Keys == b.Keys + {id}
  {
    if Awarded(b, id) then b else b[id := true]
  }

  const DayMaster := "dayMaster"
  const WeekFinisher := "weekFinisher"
  const Challenge12 := "challenge12"
  const Pushups50 := "pu50"
  const Lifts100 := "lifts100"
  const Streak7 := "streak7"
  const Streak12 := "streak12"

  /** The badge conditions. Day Master and Week Finisher count the keys of the
      achievement maps, whatever their flags. */
  predicate BadgeDue(id: string, a: Achievements, t: Totals, streak: int) {
    || (id == DayMaster && |a.days| >= 1)
    || (id == WeekFinisher && |a.weeks| >= 1)
    || (id == Challenge12 && a.challenge12)
    || (id == Pushups50 && t.pushups >= 50)
    || (id == Lifts100 && t.lifts >= 100)
    || (id == Streak7 && streak >= 7)
    || (id == Streak12 && streak >= 12)
  }

  /** The badges in the order the app checks them. */
  const BadgeOrder := [DayMaster, WeekFinisher, Challenge12, Pushups50, Lifts100, Streak7, Streak12]

  /** Give, in order, each badge of `ids` whose condition holds. */
  function GiveDue(b: Badges, ids: seq<string>, a: Achievements, t: Totals, streak: int): (r: Badges)
    ensures OnlyRaises(b, r)
    ensures forall id :: Awarded(r, id) <==> Awarded(b, id) || (id in ids && BadgeDue(id, a, t, streak))
    ensures forall id :: Changed(b, r, id) ==> id in ids && BadgeDue(id, a, t, streak) && !Awarded(b, id)
    decreases |ids|
  {
    if |ids| == 0 then b
    else
      var b1 := if BadgeDue(ids[0], a, t, streak) then Give(b, ids[0]) else b;
      var r := GiveDue(b1, ids[1..], a, t, streak);
      OnlyRaisesTransitive(b, b1, r);
      assert forall id :: id in ids <==> id == ids[0] || id in ids[1..];
      r
  }

  /** `grantBadges`: afterwards a badge is set exactly when it was set before
      or its condition holds now; flags only go up. */
  function GrantBadges(b: Badges, a: Achievements, t: Totals, streak: int): (r: Badges)
    ensures OnlyRaises(b, r)
    ensures forall id :: Awarded(r, id) <==> Awarded(b, id) || BadgeDue(id, a, t, streak)
    ensures forall id :: Changed(b, r, id) ==> BadgeDue(id, a, t, streak) && !Awarded(b, id)
  {
    assert forall id :: BadgeDue(id, a, t, streak) ==> id in BadgeOrder;
    GiveDue(b, BadgeOrder, a, t, streak)
  }

  /** Re-granting with the same facts is a no-op. */
  lemma GrantBadgesIdempotent(b: Badges, a: Achievements, t: Totals, streak: int)
    ensures GrantBadges(GrantBadges(b, a, t, streak), a, t, streak) == GrantBadges(b, a, t, streak)
  {
    var r := GrantBadges(b, a, t, streak);
    var r2 := GrantBadges(r, a, t, streak);
    forall id | id in r2 ensures id in r && r2[id] == r[id] {
      if !(id in r && r2[id] == r[id]) {
        assert Changed(r, r2, id);
      }
    }
  }
}

=== FILE: numbers.dfy ===
/** Integer helpers shared by the schedule, the counters and the statistics. */
module Numbers {

  function Min(a: int, b: int): int {
    if a <= b then a else b
  }

  function Max(a: int, b: int): int {
    if a >= b then a else b
  }

  /** The app's `clamp`: bound `v` above by `hi`, then below by `lo`.
      When the bounds cross, the lower bound wins. */
  function Clamp(v: int, lo: int, hi: int): (r: int)
    ensures lo <= hi ==> lo <= r <= hi
    ensures lo <= v <= hi ==> r == v
    ensures v <= lo ==> r == lo
    ensures lo <= hi <= v ==> r == hi
    ensures hi < lo ==> r == lo
  {
    Max(lo, Min(hi, v))
  }
}

=== FILE: optional.dfy ===
/** A value that an imported document may or may not carry. */
module Optional {

  datatype Option<+T> = None | Some(value: T) {

    /** The carried value, or `default` when there is none. */
    function GetOr(default: T): T {
      match this
      case Some(v) => v
      case None => default
    }
  }
}

=== FILE: progress.dfy ===
/** The progress store: per-date counters, created lazily, changed one field at
    a time by the counter buttons, and zeroed by a day reset. */
module Progress {
  import opened Numbers
  import opened Dates
  import opened Counters

  type Store = map<Key, Entry>

  /** What a date's counters read as: its entry, or all zeros before it has one. */
  function Lookup(store: Store, k: Key): Entry {
    if k in store then store[k] else Zero
  }

  /** Every counter of every stored entry lies in [0, 999]. */
  ghost predicate StoreInRange(store: Store) {
    forall k :: k in store ==> InRange(store[k])
  }

  /** `getProgressFor`: an existing entry is returned and nothing changes;
      otherwise an all-zero entry is created for this key alone. */
  function GetProgressFor(store: Store, k: Key): (r: (Entry, Store))
    ensures k in store ==> r.0 == store[k] && r.1 == store
    ensures k !in store ==> r.0 == Zero
    ensures r.1.Keys == store.Keys + {k}
    ensures k in r.1 && r.1[k] == r.0
    ensures forall k' :: k' in store ==> r.1[k'] == store[k']
  {
    if k in store then (store[k], store) else (Zero, store[k := Zero])
  }

  /** Set one field of the (lazily created) entry for `k` to `v` clamped to
      [0, 999]. */
  function SetClamped(store: Store, k: Key, s: Slot, f: Field, v: int): Store {
    var e := GetProgressFor(store, k).0;
    GetProgressFor(store, k).1[k := e.With(s, f, Clamp(v, 0, MaxCount))]
  }

  /** The "+" button: one more on a field, never above 999. Only that field of
      that date changes. */
  function More(store: Store, k: Key, s: Slot, f: Field): (r: Store)
    ensures r.Keys == store.Keys + {k}
    ensures var v := Lookup(store, k).Get(s, f);
      && 0 <= r[k].Get(s, f) <= MaxCount
      && (0 <= v < MaxCount ==> r[k].Get(s, f) == v + 1)
      && (MaxCount <= v ==> r[k].Get(s, f) == MaxCount)
      && (v < 0 ==> r[k].Get(s, f) == 0)
    ensures forall s', f' :: s' != s || f' != f ==> r[k].Get(s', f') == Lookup(store, k).Get(s', f')
    ensures forall k' :: k' != k && k' in store ==> r[k'] == store[k']
  {
    SetClamped(store, k, s, f, Lookup(store, k).Get(s, f) + 1)
  }

  /** The "-" button: one less on a field, never below 0. Only that field of
      that date changes. */
  function Less(store: Store, k: Key, s: Slot, f: Field): (r: Store)
    ensures r.Keys == store.Keys + {k}
    ensures var v := Lookup(store, k).Get(s, f);
      && 0 <= r[k].Get(s, f) <= MaxCount
      && (0 < v <= MaxCount ==> r[k].Get(s, f) == v - 1)
      && (v <= 0 ==> r[k].Get(s, f) == 0)
      && (MaxCount < v ==> r[k].Get(s, f) == MaxCount)
    ensures forall s', f' :: s' != s || f' != f ==> r[k].Get(s', f') == Lookup(store, k).Get(s', f')
    ensures forall k' :: k' != k && k' in store ==> r[k'] == store[k']
  {
    SetClamped(store, k, s, f, Lookup(store, k).Get(s, f) - 1)
  }

  /** "Reiniciar día": the date's nine counters become 0; no other date changes. */
  function ResetDay(store: Store, k: Key): (r: Store)
    ensures r.Keys == store.Keys + {k}
    ensures forall s, f :: r[k].Get(s, f) == 0
    ensures forall k' :: k' != k && k' in store ==> r[k'] == store[k']
  {
    store[k := Zero]
  }

  lemma EntryExtensional(a: Entry, b: Entry)
    requires forall s, f :: a.Get(s, f) == b.Get(s, f)
    ensures a == b
  {
    assert a.Get(Morning, Pushups) == b.Get(Morning, Pushups);
    assert a.Get(Morning, DumbR) == b.Get(Morning, DumbR);
    assert a.Get(Morning, DumbL) == b.Get(Morning, DumbL);
    assert a.Get(Midday, Pushups) == b.Get(Midday, Pushups);
    assert a.Get(Midday, DumbR) == b.Get(Midday, DumbR);
    assert a.Get(Midday, DumbL) == b.Get(Midday, DumbL);
    assert a.Get(Evening, Pushups) == b.Get(Evening, Pushups);
    assert a.Get(Evening, DumbR) == b.Get(Evening, DumbR);
    assert a.Get(Evening, DumbL) == b.Get(Evening, DumbL);
  }

  /** "+" then "-" on the same field gives back the store as it was once the
      date's entry exists, unless the field already stood at 999 (or outside
      the counter range). */
  lemma MoreThenLess(store: Store, k: Key, s: Slot, f: Field)
    requires 0 <= Lookup(store, k).Get(s, f) < MaxCount
    ensures Less(More(store, k, s, f), k, s, f) == GetProgressFor(store, k).1
  {
    var r := Less(More(store, k, s, f), k, s, f);
    var g := GetProgressFor(store, k).1;
    EntryExtensional(r[k], g[k]);
    assert r.Keys == g.Keys;
  }

  /** "-" then "+" on the same field gives back the store as it was once the
      date's entry exists, unless the field already stood at 0. */
  lemma LessThenMore(store: Store, k: Key, s: Slot, f: Field)
    requires 0 < Lookup(store, k).Get(s, f) <= MaxCount
    ensures More(Less(store, k, s, f), k, s, f) == GetProgressFor(store, k).1
  {
    var r := More(Less(store, k, s, f), k, s, f);
    var g := GetProgressFor(store, k).1;
    EntryExtensional(r[k], g[k]);
    assert r.Keys == g.Keys;
  }

  /** Whatever the buttons did to a date, a reset wipes it out. */
  lemma ResetAfterMore(store: Store, k: Key, s: Slot, f: Field)
    ensures ResetDay(More(store, k, s, f), k) == ResetDay(store, k)
  {
    assert ResetDay(More(store, k, s, f), k).Keys == ResetDay(store, k).Keys;
  }

  /** Setting one field through the clamp keeps every counter in range. */
  lemma SetClampedKeepsRange(store: Store, k: Key, s: Slot, f: Field, v: int)
    requires StoreInRange(store)
    ensures StoreInRange(SetClamped(store, k, s, f, v))
  {
    var e := Lookup(store, k);
    assert InRange(e);
    var r := SetClamped(store, k, s, f, v);
    assert r[k] == e.With(s, f, Clamp(v, 0, MaxCount));
    forall s', f' ensures 0 <= r[k].Get(s', f') <= MaxCount {
      if s' != s || f' != f {
        assert r[k].Get(s', f') == e.Get(s', f');
      }
    }
  }

  /** The counter range [0, 999] is an invariant of every store operation. */
  lemma OperationsKeepRange(store: Store, k: Key, s: Slot, f: Field)
    requires StoreInRange(store)
    ensures StoreInRange(GetProgressFor(store, k).1)
    ensures StoreInRange(More(store, k, s, f))
    ensures StoreInRange(Less(store, k, s, f))
    ensures StoreInRange(ResetDay(store, k))
  {
    SetClampedKeepsRange(store, k, s, f, Lookup(store, k).Get(s, f) + 1);
    SetClampedKeepsRange(store, k, s, f, Lookup(store, k).Get(s, f) - 1);
    assert InRange(ResetDay(store, k)[k]);
  }
}

=== FILE: schedule.dfy ===
/** The schedule builder: the sprint's days and their targets, recomputed from
    the configuration every time. */
module Schedule {
  import opened Numbers
  import opened Dates
  import opened Counters
  import opened Config

  /** One sprint day: its date, weekday, exercise name and nine targets. */
  datatype Day = Day(date: int, dow: int, title: string, targets: Entry)

  /** The progression value of the day at 0-based position `step`: one more
      each day, capped by the configured ceiling (12 when it is zero). */
  function Progression(cfg: Config, step: nat): int {
    Min(OrTwelve(cfg.progressiveMax), step + 1)
  }

  /** Morning: the fixed bases. Midday: the progression value on both arms,
      and on push-ups only when the progressive flag is set. Evening: the
      progression value on push-ups and the fixed lift base. */
  function Targets(cfg: Config, step: nat): Entry {
    var m := Progression(cfg, step);
    var p := OrTwelve(cfg.basePushups);
    var l := OrTwelve(cfg.baseLifts);
    Entry(
      Counts(p, l, l),
      Counts(if cfg.pushupMiddayProgressive then m else 0, m, m),
      Counts(m, l, l))
  }

  /** The rotation entry for position `i`, or "Dumbbell" without a rotation. */
  function Title(rotation: seq<string>, i: nat): string {
    if |rotation| > 0 then rotation[i % |rotation|] else "Dumbbell"
  }

  function MakeDay(cfg: Config, date: int, i: nat): Day {
    Day(date, Weekday(date), Title(cfg.rotation, i), Targets(cfg, i))
  }

  /** The builder's loop from date `d` with `n` days still to include: a rest
      day is stepped over without being counted, any other day is included.
      The result is the included dates in order. */
  function Workdays(skip: int, d: int, n: nat): (dates: seq<int>)
    ensures |dates| == n
    ensures forall j :: 0 <= j < |dates| ==> d <= dates[j] && !IsRestDay(skip, dates[j])
    ensures forall j, k :: 0 <= j < k < |dates| ==> dates[j] < dates[k]
    ensures 0 < |dates| ==> FirstWorkday(skip, d, dates[0])
    ensures forall j :: 0 <= j < |dates| - 1 ==> FirstWorkday(skip, dates[j] + 1, dates[j + 1])
    decreases n, if IsRestDay(skip, d) then 1 else 0
  {
    if n == 0 then []
    else if IsRestDay(skip, d) then
      RestDayNotTwice(skip, d);
      Workdays(skip, d + 1, n)
    else
      var rest := Workdays(skip, d + 1, n - 1);
      assert forall j :: 0 < j <= |rest| ==> ([d] + rest)[j] == rest[j - 1];
      [d] + rest
  }

  /** `buildDays`: exactly `totalDays` days (none when it is not positive), in
      strictly increasing date order, none on the rest weekday, and none of the
      other days from the start date to the last one left out. The i-th day is
      named and targeted after its position i. */
  function BuildDays(cfg: Config): (days: seq<Day>)
    ensures |days| == if cfg.totalDays > 0 then cfg.totalDays else 0
    ensures forall j, k :: 0 <= j < k < |days| ==> days[j].date < days[k].date
    ensures forall j :: 0 <= j < |days| ==> cfg.startDate <= days[j].date
    ensures forall j :: 0 <= j < |days| ==> !IsRestDay(cfg.skipWeekday, days[j].date)
    ensures 0 < |days| ==> FirstWorkday(cfg.skipWeekday, cfg.startDate, days[0].date)
    ensures forall j :: 0 <= j < |days| - 1 ==> FirstWorkday(cfg.skipWeekday, days[j].date + 1, days[j + 1].date)
    ensures forall j :: 0 <= j < |days| ==> days[j].dow == Weekday(days[j].date)
    ensures forall j :: 0 <= j < |days| ==>
      days[j].title == if |cfg.rotation| > 0 then cfg.rotation[j % |cfg.rotation|] else "Dumbbell"
    ensures forall j :: 0 <= j < |days| ==>
      var m := Min(OrTwelve(cfg.progressiveMax), j + 1);
      var p := OrTwelve(cfg.basePushups);
      var l := OrTwelve(cfg.baseLifts);
      && days[j].targets.morning == Counts(p, l, l)
      && days[j].targets.midday == Counts(if cfg.pushupMiddayProgressive then m else 0, m, m)
      && days[j].targets.evening == Counts(m, l, l)
  {
    var dates := Workdays(cfg.skipWeekday, cfg.startDate, if cfg.totalDays > 0 then cfg.totalDays else 0);
    seq(|dates|, j requires 0 <= j < |dates| => MakeDay(cfg, dates[j], j))
  }

  /** The progression never decreases from one day to the next, never passes
      the ceiling, and reaches it once the position does. */
  lemma ProgressionMonotone(cfg: Config, j: nat, k: nat)
    requires j <= k
    ensures Progression(cfg, j) <= Progression(cfg, k) <= OrTwelve(cfg.progressiveMax)
    ensures OrTwelve(cfg.progressiveMax) <= k + 1 ==> Progression(cfg, k) == OrTwelve(cfg.progressiveMax)
  {
  }

  /** With non-negative bases and ceiling every target of every day is
      non-negative; configured zeros become 12, never 0. */
  lemma TargetsNonNegative(cfg: Config, j: nat)
    requires cfg.basePushups >= 0 && cfg.baseLifts >= 0 && cfg.progressiveMax >= 0
    requires j < |BuildDays(cfg)|
    ensures NonNegative(BuildDays(cfg)[j].targets)
    ensures BuildDays(cfg)[j].targets.morning.pushups > 0
    ensures BuildDays(cfg)[j].targets.evening.dumbR > 0
    ensures cfg.basePushups == 0 ==> BuildDays(cfg)[j].targets.morning.pushups == 12
    ensures cfg.baseLifts == 0 ==> BuildDays(cfg)[j].targets.evening.dumbR == 12
  {
  }

  /** The one-day sprint from 2025-08-20 with twelve-repetition bases and no
      progressive midday push-ups. */
  lemma OneDaySprint()
    ensures
      var cfg := Default.(totalDays := 1, skipWeekday := -1);
      BuildDays(cfg) == [Day(DefaultStart, 3, "Biceps Curl",
        Entry(Counts(12, 12, 12), Counts(0, 1, 1), Counts(1, 12, 12)))]
  {
    var cfg := Default.(totalDays := 1, skipWeekday := -1);
    var days := BuildDays(cfg);
    assert |days| == 1;
    assert FirstWorkday(cfg.skipWeekday, cfg.startDate, days[0].date);
  }
}

=== FILE: stats.dfy ===
/** Day statistics: progress clamped to the targets, the completion
    percentage, the 100% test, and the sprint-wide totals. */
module Stats {
  import opened Numbers
  import opened Dates
  import opened Counters
  import opened Progress
  import opened Schedule

  function ClampCounts(p: Counts, t: Counts): Counts {
    Counts(Clamp(p.pushups, 0, t.pushups), Clamp(p.dumbR, 0, t.dumbR), Clamp(p.dumbL, 0, t.dumbL))
  }

  /** Each done count clamped to [0, its target]. A negative target clamps
      everything to 0. */
  function ClampToTargets(p: Entry, t: Entry): (c: Entry)
    ensures forall s, f :: 0 <= c.Get(s, f) && (0 <= t.Get(s, f) ==> c.Get(s, f) <= t.Get(s, f))
    ensures forall s, f :: 0 <= p.Get(s, f) <= t.Get(s, f) ==> c.Get(s, f) == p.Get(s, f)
    ensures forall s, f :: 0 <= t.Get(s, f) <= p.Get(s, f) ==> c.Get(s, f) == t.Get(s, f)
    ensures forall s, f :: p.Get(s, f) <= 0 ==> c.Get(s, f) == 0
    ensures forall s, f :: t.Get(s, f) < 0 ==> c.Get(s, f) == 0
  {
    Entry(ClampCounts(p.morning, t.morning), ClampCounts(p.midday, t.midday), ClampCounts(p.evening, t.evening))
  }

  /** `isDay100`: some target is set and the clamped progress covers the whole
      target sum. */
  function IsDay100(t: Entry, c: Entry): (r: bool)
    ensures r ==> t.Total() > 0
  {
    t.Total() > 0 && c.Total() >= t.Total()
  }

  /** A field has reached its target: a zero target is reached by any count. */
  predicate Reached(v: int, target: int) {
    v >= target || target == 0
  }

  /** With non-negative targets the clamped sum never exceeds the target sum. */
  lemma DoneWithinTarget(p: Entry, t: Entry)
    requires NonNegative(t)
    ensures 0 <= ClampToTargets(p, t).Total() <= t.Total()
  {
    TotalByFields(t);
    TotalByFields(ClampToTargets(p, t));
  }

  /** One clamped field equals its non-negative target exactly when the
      field has reached it. */
  lemma ClampedFieldIff(v: int, target: int)
    requires 0 <= target
    ensures Clamp(v, 0, target) == target <==> Reached(v, target)
  {
  }

  /** Nine fields each at most their target add up to the target sum only
      when every one equals its target. */
  lemma SumReachesOnlyAtTargets(c: Entry, t: Entry)
    requires forall s, f :: c.Get(s, f) <= t.Get(s, f)
    requires c.Total() >= t.Total()
    ensures forall s, f :: c.Get(s, f) == t.Get(s, f)
  {
    TotalByFields(c);
    TotalByFields(t);
    forall s, f ensures c.Get(s, f) == t.Get(s, f) {
      match s
      case Morning => match f { case Pushups => case DumbR => case DumbL => }
      case Midday => match f { case Pushups => case DumbR => case DumbL => }
      case Evening => match f { case Pushups => case DumbR => case DumbL => }
    }
  }

  /** With non-negative targets a day is 100% exactly when some target is set
      and every one of the nine fields has reached its target. */
  lemma Day100Iff(p: Entry, t: Entry)
    requires NonNegative(t)
    ensures IsDay100(t, ClampToTargets(p, t)) <==> t.Total() > 0 && forall s, f :: Reached(p.Get(s, f), t.Get(s, f))
  {
    var c := ClampToTargets(p, t);
    forall s, f ensures c.Get(s, f) == t.Get(s, f) <==> Reached(p.Get(s, f), t.Get(s, f)) {
      assert c.At(s).Get(f) == Clamp(p.At(s).Get(f), 0, t.At(s).Get(f)) by {
        match s
        case Morning => match f { case Pushups => case DumbR => case DumbL => }
        case Midday => match f { case Pushups => case DumbR => case DumbL => }
        case Evening => match f { case Pushups => case DumbR => case DumbL => }
      }
      ClampedFieldIff(p.Get(s, f), t.Get(s, f));
    }
    if IsDay100(t, c) {
      SumReachesOnlyAtTargets(c, t);
    }
    if forall s, f :: Reached(p.Get(s, f), t.Get(s, f)) {
      TotalByFields(c);
      TotalByFields(t);
    }
  }

  /** Rounding of num / den to the nearest integer, halves rounded up (the
      rounding of the app's percentage), on exact rationals. */
  function RoundHalfUp(num: int, den: int): (r: int)
    requires den != 0
    ensures var n := if den > 0 then num else -num;
      var d := if den > 0 then den else -den;
      2 * d * r <= 2 * n + d < 2 * d * (r + 1)
  {
    if den > 0 then (2 * num + den) / (2 * den) else (-2 * num - den) / (-2 * den)
  }

  lemma MulCancelLt(d: int, a: int, b: int)
    requires d > 0 && d * a < d * b
    ensures a < b
  {
  }

  /** The rounded percentage of `done` out of `den`, for 0 <= done <= den. */
  lemma PctBounds(done: int, den: int)
    requires 0 <= done <= den && 0 < den
    ensures 0 <= RoundHalfUp(100 * done, den) <= 100
    ensures done == den ==> RoundHalfUp(100 * done, den) == 100
    ensures done == 0 ==> RoundHalfUp(100 * done, den) == 0
  {
    var r := RoundHalfUp(100 * done, den);
    var d2 := 2 * den;
    assert d2 * r <= 200 * done + den < d2 * (r + 1);
    MulCancelLt(d2, r, 101);
    MulCancelLt(d2, 0, r + 1);
    if done == den {
      MulCancelLt(d2, 100, r + 1);
    }
    if done == 0 {
      MulCancelLt(d2, r, 1);
    }
  }

  /** The day's percentage: the clamped sum over the target sum, with a zero
      target sum counted as 1. With non-negative targets it lies in [0, 100], a
      100% day shows 100, and a day without targets shows 0. */
  function DayPct(p: Entry, t: Entry): (pct: int)
    ensures NonNegative(t) ==> 0 <= pct <= 100
    ensures NonNegative(t) && IsDay100(t, ClampToTargets(p, t)) ==> pct == 100
    ensures NonNegative(t) && t.Total() == 0 ==> pct == 0
  {
    var done := ClampToTargets(p, t).Total();
    var den := if t.Total() == 0 then 1 else t.Total();
    var pct := RoundHalfUp(100 * done, den);
    assert NonNegative(t) ==>
      && 0 <= done <= t.Total()
      && 0 <= pct <= 100
      && (done == den ==> pct == 100)
      && (done == 0 ==> pct == 0)
    by {
      if NonNegative(t) {
        DoneWithinTarget(p, t);
        PctBounds(done, den);
      }
    }
    pct
  }

  /** `totalsAll`: push-ups and lifts (both arms) summed over the given days. */
  datatype Totals = Totals(pushups: int, lifts: int)

  function DayPushups(e: Entry): int {
    e.morning.pushups + e.midday.pushups + e.evening.pushups
  }

  function DayLifts(e: Entry): int {
    e.morning.dumbR + e.morning.dumbL + e.midday.dumbR + e.midday.dumbL + e.evening.dumbR + e.evening.dumbL
  }

  /** One day's contribution to the totals when every counter is in range. */
  lemma DayContributionBounds(store: Store, k: Key)
    ensures StoreInRange(store) ==> 0 <= DayPushups(Lookup(store, k)) <= 3 * MaxCount
    ensures StoreInRange(store) ==> 0 <= DayLifts(Lookup(store, k)) <= 6 * MaxCount
  {
    var e := Lookup(store, k);
    if StoreInRange(store) {
      assert InRange(e);
      assert 0 <= e.Get(Morning, Pushups) <= MaxCount && 0 <= e.Get(Midday, Pushups) <= MaxCount;
      assert 0 <= e.Get(Evening, Pushups) <= MaxCount;
      assert 0 <= e.Get(Morning, DumbR) <= MaxCount && 0 <= e.Get(Morning, DumbL) <= MaxCount;
      assert 0 <= e.Get(Midday, DumbR) <= MaxCount && 0 <= e.Get(Midday, DumbL) <= MaxCount;
      assert 0 <= e.Get(Evening, DumbR) <= MaxCount && 0 <= e.Get(Evening, DumbL) <= MaxCount;
    }
  }

  /** Sums over the days' entries. When every counter lies in [0, 999] both
      totals are non-negative and at most 3 (push-ups) and 6 (lifts) full
      counters per day. */
  function TotalsAll(days: seq<Day>, store: Store): (t: Totals)
    ensures StoreInRange(store) ==> 0 <= t.pushups <= 3 * MaxCount * |days|
    ensures StoreInRange(store) ==> 0 <= t.lifts <= 6 * MaxCount * |days|
  {
    if |days| == 0 then Totals(0, 0)
    else
      var e := Lookup(store, Iso(days[0].date));
      var rest := TotalsAll(days[1..], store);
      DayContributionBounds(store, Iso(days[0].date));
      Totals(DayPushups(e) + rest.pushups, DayLifts(e) + rest.lifts)
  }

  /** Totals add up over consecutive stretches of days. */
  lemma {:induction false} TotalsAppend(a: seq<Day>, b: seq<Day>, store: Store)
    ensures TotalsAll(a + b, store).pushups == TotalsAll(a, store).pushups + TotalsAll(b, store).pushups
    ensures TotalsAll(a + b, store).lifts == TotalsAll(a, store).lifts + TotalsAll(b, store).lifts
  {
    if |a| > 0 {
      assert (a + b)[1..] == a[1..] + b;
      TotalsAppend(a[1..], b, store);
    } else {
      assert a + b == b;
    }
  }

  /** Totals read only the days' own entries: stores that agree on those give
      the same totals. */
  lemma {:induction false} TotalsReadOnlyDays(days: seq<Day>, s1: Store, s2: Store)
    requires forall j :: 0 <= j < |days| ==> Lookup(s1, Iso(days[j].date)) == Lookup(s2, Iso(days[j].date))
    ensures TotalsAll(days, s1) == TotalsAll(days, s2)
  {
    if |days| > 0 {
      assert Lookup(s1, Iso(days[0].date)) == Lookup(s2, Iso(days[0].date));
      TotalsReadOnlyDays(days[1..], s1, s2);
    }
  }
}

=== FILE: streak.dfy ===
/** The global streak: consecutive active days counted back from today over the
    whole progress history, with the rest weekday stepped over. */
module Streak {
  import opened Dates
  import opened Counters
  import opened Progress

  /** A date is active when it has an entry and one of its slots has a
      positive field sum. */
  predicate Active(store: Store, k: Key) {
    k in store && (store[k].morning.Total() > 0 || store[k].midday.Total() > 0 || store[k].evening.Total() > 0)
  }

  /** The rest weekday as the streak sees it. The configured value goes through
      the falsy fallback `|| -1`, so a Sunday rest day (0) becomes "no rest day"
      here, although the schedule builder does leave Sundays out. */
  function StreakSkip(skipWeekday: int): (skip: int)
    ensures skipWeekday != Sunday ==> skip == skipWeekday
    ensures skip != Sunday
    ensures skipWeekday == Sunday ==> skip < 0 && forall d :: !IsRestDay(skip, d)
  {
    if skipWeekday == 0 then -1 else skipWeekday
  }

  /** The loop's iteration guard: at most 2000 days are looked at. */
  const Guard := 2000

  /** The walk back from `d` with `fuel` iterations left: rest days are stepped
      over, active days counted, and the first inactive other day stops it. */
  function StreakFrom(store: Store, skip: int, d: int, fuel: nat): (n: nat)
    ensures n <= fuel
    decreases fuel
  {
    if fuel == 0 then 0
    else if IsRestDay(skip, d) then StreakFrom(store, skip, d - 1, fuel - 1)
    else if !Active(store, Iso(d)) then 0
    else 1 + StreakFrom(store, skip, d - 1, fuel - 1)
  }

  /** `computeStreakGlobal` from today. */
  function StreakGlobal(skipWeekday: int, store: Store, today: int): nat {
    StreakFrom(store, StreakSkip(skipWeekday), today, Guard)
  }

  /** The date the walk stops at: the first inactive non-rest day, or the
      last date the guard lets it reach. */
  function StopDate(store: Store, skip: int, d: int, fuel: nat): int
    decreases fuel
  {
    if fuel == 0 then d
    else if IsRestDay(skip, d) then StopDate(store, skip, d - 1, fuel - 1)
    else if !Active(store, Iso(d)) then d
    else StopDate(store, skip, d - 1, fuel - 1)
  }

  /** The number of non-rest days in (lo, hi]. */
  function NonRestCount(skip: int, lo: int, hi: int): nat
    decreases hi - lo
  {
    if hi <= lo then 0
    else (if IsRestDay(skip, hi) then 0 else 1) + NonRestCount(skip, lo, hi - 1)
  }

  /** What the streak counts: going back from `d`, every day after the stop
      date is a rest day or active, the streak is the number of non-rest days
      among them, and the walk stopped either at an inactive non-rest day or
      because the guard ran out. */
  lemma {:induction false} StreakMeaning(store: Store, skip: int, d: int, fuel: nat)
    ensures var s := StopDate(store, skip, d, fuel);
      && d - fuel <= s <= d
      && (forall e :: s < e <= d ==> IsRestDay(skip, e) || Active(store, Iso(e)))
      && StreakFrom(store, skip, d, fuel) == NonRestCount(skip, s, d)
      && (s == d - fuel || (!IsRestDay(skip, s) && !Active(store, Iso(s))))
    decreases fuel
  {
    if fuel > 0 && (IsRestDay(skip, d) || Active(store, Iso(d))) {
      StreakMeaning(store, skip, d - 1, fuel - 1);
    }
  }

  /** `computeStreakGlobal` as the app runs it: a guarded loop walking back one
      day at a time from today. */
  method ComputeStreakGlobal(skipWeekday: int, store: Store, today: int) returns (streak: nat)
    ensures streak == StreakGlobal(skipWeekday, store, today)
    ensures streak <= Guard
  {
    var skip := StreakSkip(skipWeekday);
    var d := today;
    var guard := 0;
    streak := 0;
    while guard < Guard
      invariant 0 <= guard <= Guard
      invariant streak + StreakFrom(store, skip, d, Guard - guard) == StreakFrom(store, skip, today, Guard)
    {
      guard := guard + 1;
      if IsRestDay(skip, d) {
        d := d - 1;
        continue;
      }
      if !Active(store, Iso(d)) {
        break;
      }
      streak := streak + 1;
      d := d - 1;
    }
  }

  /** A day with some work in it, used by the examples below. */
  const Worked := Zero.(morning := Counts(1, 0, 0))

  /** Active days D, D-1 and D-3 with D-2 the rest weekday (a Saturday):
      the gap is bridged and the streak from D is 3. */
  lemma RestDayBridgesGap()
    ensures
      var d := 20325;
      var store := map[Iso(d) := Worked, Iso(d - 1) := Worked, Iso(d - 3) := Worked];
      Weekday(d - 2) == 6 && StreakGlobal(6, store, d) == 3
  {
    var d := 20325;
    var store := map[Iso(d) := Worked, Iso(d - 1) := Worked, Iso(d - 3) := Worked];
    assert !Active(store, Iso(d - 4));
    assert StreakFrom(store, 6, d - 4, Guard - 4) == 0;
    assert StreakFrom(store, 6, d - 3, Guard - 3) == 1;
    assert StreakFrom(store, 6, d - 2, Guard - 2) == 1;
    assert StreakFrom(store, 6, d - 1, Guard - 1) == 2;
  }

  /** The same days without a rest weekday: the walk stops at D-2 and the
      streak from D is 2. */
  lemma NoRestDayStopsAtGap()
    ensures
      var d := 20325;
      var store := map[Iso(d) := Worked, Iso(d - 1) := Worked, Iso(d - 3) := Worked];
      StreakGlobal(-1, store, d) == 2
  {
    var d := 20325;
    var store := map[Iso(d) := Worked, Iso(d - 1) := Worked, Iso(d - 3) := Worked];
    assert !Active(store, Iso(d - 2));
    assert StreakFrom(store, -1, d - 2, Guard - 2) == 0;
    assert StreakFrom(store, -1, d - 1, Guard - 1) == 1;
  }

  /** With Sunday configured as the rest day (the default), a Sunday left
      empty between active days still ends the streak: D-2 is a Sunday and the
      streak from D is 2, not 3. */
  lemma SundayRestBreaksStreak()
    ensures
      var d := 20326;
      var store := map[Iso(d) := Worked, Iso(d - 1) := Worked, Iso(d - 3) := Worked];
      Weekday(d - 2) == Sunday && StreakGlobal(Sunday, store, d) == 2
  {
    var d := 20326;
    var store := map[Iso(d) := Worked, Iso(d - 1) := Worked, Iso(d - 3) := Worked];
    assert StreakSkip(Sunday) == -1;
    assert !Active(store, Iso(d - 2));
    assert StreakFrom(store, -1, d - 2, Guard - 2) == 0;
    assert StreakFrom(store, -1, d - 1, Guard - 1) == 1;
  }
}
